=== FILE: README.md ===
# Recommendation page — a Dafny model

This project models the decision logic of the itinerary page of a travel
planner front end (`src/components/RecommendationPage.js`). The page shows a multi-day itinerary that a
recommendation backend returned. The user pages through the days, sees the
places of the current day as numbered rows and numbered map markers, and can
either save the itinerary or ask for a new recommendation.

The model is functional. Every handler is a pure function of its inputs, and
the browser and server are replaced by parameters: the stored access token,
the current page address and the server's answer.

- `Itinerary`: places, day plans, the router's navigation state with every field optional, and `ReadState`, the page's destructuring with its defaults.
- `DayNavigation`: the clamped "next"/"previous" transitions and the navigation bar (previous, next or "select this itinerary").
- `Display`: the hashtag line (filter the non-empty tags, join with spaces) and the numbered place rows with their first/middle/last badge.
- `PageView`: the whole rendered page, either the terminal error message or the day view.
- `MarkerSync`: the map-marker effect. Markers are abstract values with a number, a position and an "attached" flag.
- `UriComponent`: `encodeURIComponent`/`decodeURIComponent` (section 19.2.6 of ECMA-262), which the login redirect uses to carry the current address.
- `Actions`: "save" and "recommend again" as ordered lists of effects (loading-flag updates, requests, toast, alerts, navigations), with readers for the number of requests, the final loading flag, the last navigation and the presence of an alert.

Notes on the code as written:
- The save handler moves to the saved-trips page from a `setTimeout`. So in the model the navigation comes after the loading flag is lowered.
- Marker positions are built as `LatLng(longitude, latitude)` (line 73), the reverse of the map-centre order at line 36. The model keeps the order as written: `MarkerSync.Position` puts the longitude first.
- The retry handler posts the raw navigation state as `location`. Its next page receives only seven fields, so latitude, longitude, gender and age group are not carried. `Actions.SecondRetryLosesDemographics` shows the consequence: a second retry sends empty demographics.
- A failed retry is only logged: no alert, no navigation, and the flag is lowered. The user gets no feedback when a retry fails.
- The retry navigates to the same route. Whether that remounts the page (resetting the day index to 0) depends on the router configuration, which is not part of this model. `PageView.FreshPageShowsFirstDay` covers the freshly mounted case. If the page is not remounted, the old index is kept against the new itinerary; see `PageView.Render` under "## Left out".

## Model

| member | source | states |
|---|---|---|
| Itinerary.ReadState | src/components/RecommendationPage.js:13-21 | an absent state reads as an empty page; for each of the seven fields, a present value is kept and a missing one takes its default (no days, empty strings, empty preference flags) |
| DayNavigation.Next | src/components/RecommendationPage.js:116-118 | the result stays in [0, n-1], moves at most one day forward, and is a no-op exactly on the last day |
| DayNavigation.Previous | src/components/RecommendationPage.js:120-122 | the result stays in [0, n-1], moves at most one day back, and is a no-op exactly on the first day |
| DayNavigation.PreviousUndoesNext | src/components/RecommendationPage.js:116-122 | "next" then "previous" returns to i for every i < n-1 |
| DayNavigation.NextUndoesPrevious | src/components/RecommendationPage.js:116-122 | "previous" then "next" returns to i for every 0 < i < n |
| DayNavigation.ClampedAtBoundaries | src/components/RecommendationPage.js:116-122 | "next" on the last day and "previous" on day 0 leave the index unchanged, and repeating them changes nothing |
| DayNavigation.NextTimesClamps | src/components/RecommendationPage.js:116-118 | pressing "next" k times from i lands on min(i+k, n-1) |
| DayNavigation.Controls | src/components/RecommendationPage.js:268-279 | "previous" is shown iff i > 0; "next" iff i < n-1; the last control is the select button iff i = n-1, so exactly one of next/select is shown; the select button is disabled and relabelled while loading |
| DayNavigation.ControlsMatchTransitions | src/components/RecommendationPage.js:268-279 | each navigation button is shown exactly when its transition would change the index |
| Display.NonEmpty | src/components/RecommendationPage.js:222 | the kept strings are exactly the non-empty ones, and none of them is empty |
| Display.NonEmptyAppend | src/components/RecommendationPage.js:222 | filtering distributes over concatenation, so the kept strings keep their order and multiplicity |
| Display.NonEmptySingle | src/components/RecommendationPage.js:222 | one string is kept exactly when it is non-empty |
| Display.Tag | src/components/RecommendationPage.js:218-219 | an empty field gives no tag; otherwise the tag is "#" followed by the field |
| Display.Tags | src/components/RecommendationPage.js:217-221 | four tags in the order companion, transport, nature, new area; nature is #자연 only for the value "nature" and #도심 for any other non-empty value; new area is #새로운 지역 only for "new" and #익숙한 지역 for any other non-empty value |
| Display.Hashtags | src/components/RecommendationPage.js:217-222 | the line equals appending companion, transport, nature and new-area tags one at a time, with single spaces and empty tags skipped |
| Display.JoinMatchesAppend | src/components/RecommendationPage.js:222 | filter-then-join equals appending the tags one at a time with single spaces, skipping empty ones |
| Display.HashtagsInOrder | src/components/RecommendationPage.js:217-222 | the hashtag line is the non-empty tags appended in the fixed order, separated by single spaces |
| Display.HashtagsEmpty | src/components/RecommendationPage.js:217-222 | the hashtag line is empty iff all four fields are empty |
| Display.HashtagsExample | src/components/RecommendationPage.js:217-222 | all four fields set gives "#가족 #자동차 #자연 #새로운 지역" for that input |
| Display.HashtagsOtherFlags | src/components/RecommendationPage.js:220-221 | every non-empty flag value other than "nature"/"new" reads as #도심 and #익숙한 지역 |
| Display.BadgeFor | src/components/RecommendationPage.js:249-254 | first iff index 0 (a one-place day included); last iff index len-1 and len > 1; middle iff strictly between |
| Display.Rows | src/components/RecommendationPage.js:248-258 | one row per place in order, row k numbered k+1 with the badge for k and the place's name and city |
| Display.BadgesOfADay | src/components/RecommendationPage.js:249-258 | a non-empty day has exactly one first badge, on row 1; a last badge exists iff it has more than one place, and only on the final row; row numbers increase |
| PageView.Render | src/components/RecommendationPage.js:224-280 | error view iff there are no days; otherwise the current day's label, exactly the rows of its places (numbers, badges, names, cities), the hashtag line, the retry button disabled while loading, and exactly the navigation bar for that index and loading flag |
| PageView.EmptyItineraryIsTerminal | src/components/RecommendationPage.js:112-114 | with no days only the error message is produced, with no controls |
| PageView.NavigationStaysOnDayView | src/components/RecommendationPage.js:116-122 | from a valid day, "next" and "previous" lead to a valid day, which renders as a day view |
| PageView.LoadingDisablesActions | src/components/RecommendationPage.js:239-278 | while loading, the retry and select buttons are disabled and the select button reads "저장 중..." |
| PageView.FreshPageShowsFirstDay | src/components/RecommendationPage.js:23-24 | a fresh page on day 0 shows a day view iff the state has days, and has no "previous" button |
| MarkerSync.Position | src/components/RecommendationPage.js:73 | a marker's first coordinate argument is the place's longitude and the second its latitude |
| MarkerSync.PositionSwapsAxes | src/components/RecommendationPage.js:73 | a marker's position equals the latitude-first order of the map centre (line 36) only when the place's latitude equals its longitude |
| MarkerSync.DetachAll | src/components/RecommendationPage.js:65 | every previous marker is detached and keeps its number and position |
| MarkerSync.Build | src/components/RecommendationPage.js:72-104 | one attached marker per place, in list order, marker k numbered k+1 at place k's position |
| MarkerSync.Sync | src/components/RecommendationPage.js:61-110 | without a map nothing changes; with one, all held markers are detached; with days, the new list has one marker per place of the current day, numbered k+1 at place k's position, and the view is fitted to those positions; with no days no marker is created |
| MarkerSync.NoStaleMarkers | src/components/RecommendationPage.js:64-107 | after a sync no previously held marker is attached, and the attached markers are exactly as many as the current day's places |
| MarkerSync.ResyncRebuildsSameMarkers | src/components/RecommendationPage.js:110 | running the effect again on its own output rebuilds the same list and detaches the list it replaces |
| MarkerSync.MarkersMatchRows | src/components/RecommendationPage.js:92-258 | marker k and place row k carry the same number |
| UriComponent.Encode | src/components/RecommendationPage.js:135 | the encoded address contains only unreserved characters and '%' |
| UriComponent.DecodeEncode | src/components/RecommendationPage.js:135 | decoding the encoded address gives it back (UTF-8 percent-encoding round trip) |
| UriComponent.EncodeInjective | src/components/RecommendationPage.js:135 | two addresses with the same encoding are equal |
| UriComponent.EncodeExample | src/components/RecommendationPage.js:135 | "a b&c" encodes as "a%20b%26c" |
| Actions.HasToken | src/components/RecommendationPage.js:125-134 | a missing token and the empty string both count as no token; any non-empty string counts as one |
| Actions.LoginPath | src/components/RecommendationPage.js:135 | the login path is "/login?redirectUri=" followed only by unreserved characters and '%' |
| Actions.LoginRedirectCarriesAddress | src/components/RecommendationPage.js:135 | the redirectUri parameter decodes to exactly the current address |
| Actions.SaveRequestBody | src/components/RecommendationPage.js:126-132 | the save body holds the page's itinerary and dates and the raw origin coordinates |
| Actions.Save | src/components/RecommendationPage.js:124-169 | with no token the only effect is the login redirect; with a token the flag is raised first, then exactly the save body is posted with "Bearer " and the token |
| Actions.SaveOutcomes | src/components/RecommendationPage.js:134-169 | no token: login redirect, no request, no alert, loading untouched; with a token: one request and loading ends false; a toast is shown iff the save succeeded; success shows the saved toast, then lowers the flag, then goes to /myTravel and nowhere else, with no alert; a 401 shows the authentication alert before the login redirect, and the login page is its only navigation; any other failure shows only the generic save-error alert and does not navigate |
| Actions.SaveSucceeded | src/components/RecommendationPage.js:146-157 | a successful save shows the saved toast, lowers the flag, then goes to /myTravel; one request, no alert, no other navigation |
| Actions.SaveUnauthorized | src/components/RecommendationPage.js:158-162 | a 401 shows only the authentication alert, then goes to the login page and nowhere else; the flag ends false |
| Actions.SaveFailed | src/components/RecommendationPage.js:163-165 | any other failure shows only the generic save-error alert, never a toast, and never navigates; the flag ends false |
| Actions.NextRoute | src/components/RecommendationPage.js:187-197 | the next page's state carries no origin, gender or age group |
| Actions.SubmitRequestBody | src/components/RecommendationPage.js:175-183 | the retry body sends the page's companion, transport and preferences, the raw state as location, the purpose as travelPurpose, and gender/age group defaulting to "" |
| Actions.Retry | src/components/RecommendationPage.js:172-205 | the flag is raised, the request body is posted, and the flag is lowered last |
| Actions.RetryOutcomes | src/components/RecommendationPage.js:185-204 | exactly one request, never an alert or toast, loading ends false; a failure navigates nowhere; a new itinerary navigates only to /recommendation with the next page's state |
| Actions.RetryCarriesContext | src/components/RecommendationPage.js:186-197 | the next page reads back this page's companion, transport, preferences, purpose and dates unchanged, with the response as its itinerary |
| Actions.SecondRetryLosesDemographics | src/components/RecommendationPage.js:179-197 | a retry from the next page sends empty gender and age group and a location without latitude or longitude |

## Left out

- Map-provider script loading and map construction (lines 28-59), including the centre coordinate and its fallback: these are calls into an external SDK.
- getFormattedDate (lines 207-215): it depends on JavaScript `Date` and Korean locale formatting.
- HTTP calls, `localStorage`, `toast`, `alert`, `setTimeout` and `navigate` are not executed. They become inputs (token, page address, server answer) and effect values. Toast options and console logging are dropped.
- React effect scheduling: the model gives one run of the marker effect. React compares effect dependencies by reference, and every run with a map stores a fresh array (line 107, or line 66 when there are no days). So the `markers` dependency at line 110 makes the effect re-run without end. `MarkerSync.ResyncRebuildsSameMarkers` shows only that each re-run builds an equal list by value; it does not show that the loop settles.
- The bounds object and `setBounds` are reduced to the list of points the view is fitted to.
- Concurrency: the loading flag is modelled as a value in the effect lists. The double-click race while a request is in flight is not modelled.
- DayNavigation.Next: requires i < n. The handler only exists once there is at least one day. While the itinerary stays the same, these two handlers are the only writers of the index, so it stays below n.
- DayNavigation.Previous: requires i < n, for the same reason.
- PageView.Render: requires the index to be a valid day when there are days. If a retry's navigation to the same route keeps the page mounted, the index (line 23) survives while the itinerary is replaced. A shorter new itinerary then makes `recommendations[currentDay].day` at line 236 throw a TypeError. The model does not cover that crash.
- MarkerSync.Sync: requires the index to be a valid day when there are days. In the same situation, `recommendations[currentDay].places` at line 72 throws a TypeError. The model does not cover that crash.
- JavaScript truthiness: only missing fields and empty strings are treated as falsy. Non-string values (null, numbers) in string fields are not modelled.
- UriComponent.Encode: characters are Unicode scalar values, so the URIError that JavaScript raises on a lone UTF-16 surrogate cannot arise.
- Actions.Save: a failed request is classified only by its optional HTTP status. The error payload is not modelled.
- JSX layout, CSS classes other than the badge rule, place names and cities beyond the rows, and the page header.

=== FILE: actions.dfy ===
/**
  The page's two actions, "save this itinerary" and "recommend again", as the
  ordered list of effects each produces. The stored access token, the
  current page address and the server's answer are inputs; the requests,
  notifications, alerts, navigations and loading-flag updates are outputs.
*/
module Actions {
  import opened Wrappers
  import opened Itinerary
  import UriComponent

  /** The body of the save request. */
  datatype SaveBody = SaveBody(
    recommendations: seq<DayPlan>,
    startDate: string,
    endDate: string,
    latitude: Option<real>,
    longitude: Option<real>)

  /** The body of the recommendation request. */
  datatype SubmitBody = SubmitBody(
    companion: string,
    transport: string,
    preferences: Preferences,
    gender: string,
    ageGroup: string,
    location: RouteState,
    travelPurpose: string)

  /** One observable effect of an action, in the order it happens. */
  datatype Effect =
    | SetLoading(on: bool)
    | PostSave(body: SaveBody, authorization: string)
    | PostSubmit(request: SubmitBody)
    | Toast(message: string)
    | Alert(message: string)
    | Go(path: string, state: Option<RouteState>)

  /** The server's answer to the save request; a failure may come without any response. */
  datatype SaveResponse = Saved | Failed(status: Option<int>)

  /** The server's answer to the recommendation request. */
  datatype SubmitResponse = Recommended(data: seq<DayPlan>) | SubmitFailed

  const SavedMessage := "일정이 성공적으로 저장되었습니다."
  const AuthMessage := "인증이 필요합니다. 다시 로그인해주세요."
  const SaveErrorMessage := "일정 저장 중 오류가 발생했습니다. 다시 시도해 주세요."
  const LoginPrefix := "/login?redirectUri="
  const MyTravelPath := "/myTravel"
  const RecommendationPath := "/recommendation"
  const Unauthorized := 401

  // ---------------------------------------------------------------------------
  // Reading an effect list

  /** The number of requests sent. */
  function Requests(effects: seq<Effect>): (n: nat)
    ensures n <= |effects|
  {
    if effects == [] then 0
    else (if effects[0].PostSave? || effects[0].PostSubmit? then 1 else 0) + Requests(effects[1..])
  }

  /** The loading flag after the effects, starting from `before`. */
  function LoadingAfter(effects: seq<Effect>, before: bool): (after: bool)
  {
    if effects == [] then before
    else LoadingAfter(effects[1..], if effects[0].SetLoading? then effects[0].on else before)
  }

  /** The path of the last navigation, if any. */
  function Destination(effects: seq<Effect>): (last: Option<string>)
  {
    if effects == [] then None
    else match Destination(effects[1..])
      case Some(p) => Some(p)
      case None => if effects[0].Go? then Some(effects[0].path) else None
  }

  /** Whether an alert is shown. */
  predicate Alerts(effects: seq<Effect>)
  {
    exists k :: 0 <= k < |effects| && effects[k].Alert?
  }

  /** Whether a success notification is shown. */
  predicate Toasts(effects: seq<Effect>)
  {
    exists k :: 0 <= k < |effects| && effects[k].Toast?
  }

  /** Every navigation in the list goes to `path` without route state. */
  predicate OnlyGoesTo(effects: seq<Effect>, path: string)
  {
    forall k :: 0 <= k < |effects| && effects[k].Go? ==> effects[k] == Go(path, None)
  }

  lemma {:induction false} RequestsAppend(a: seq<Effect>, b: seq<Effect>)
    ensures Requests(a + b) == Requests(a) + Requests(b)
    decreases |a|
  {
    if a == [] {
      assert a + b == b;
    } else {
      assert (a + b)[1..] == a[1..] + b;
      RequestsAppend(a[1..], b);
    }
  }

  lemma {:induction false} LoadingAfterAppend(a: seq<Effect>, b: seq<Effect>, before: bool)
    ensures LoadingAfter(a + b, before) == LoadingAfter(b, LoadingAfter(a, before))
    decreases |a|
  {
    if a == [] {
      assert a + b == b;
    } else {
      assert (a + b)[1..] == a[1..] + b;
      LoadingAfterAppend(a[1..], b, if a[0].SetLoading? then a[0].on else before);
    }
  }

  lemma {:induction false} DestinationAppend(a: seq<Effect>, b: seq<Effect>)
    ensures Destination(a + b) == if Destination(b).Some? then Destination(b) else Destination(a)
    decreases |a|
  {
    if a == [] {
      assert a + b == b;
    } else {
      assert (a + b)[1..] == a[1..] + b;
      DestinationAppend(a[1..], b);
    }
  }

  /** The three readings of a one-effect list. */
  lemma Single(e: Effect, before: bool)
    ensures Requests([e]) == if e.PostSave? || e.PostSubmit? then 1 else 0
    ensures LoadingAfter([e], before) == if e.SetLoading? then e.on else before
    ensures Destination([e]) == if e.Go? then Some(e.path) else None
  {
    assert [e][1..] == [];
  }

  /** The readings of a list with one more effect at its end. */
  lemma Snoc(a: seq<Effect>, e: Effect, before: bool)
    ensures Requests(a + [e]) == Requests(a) + (if e.PostSave? || e.PostSubmit? then 1 else 0)
    ensures LoadingAfter(a + [e], before) == if e.SetLoading? then e.on else LoadingAfter(a, before)
    ensures Destination(a + [e]) == if e.Go? then Some(e.path) else Destination(a)
  {
    RequestsAppend(a, [e]);
    LoadingAfterAppend(a, [e], before);
    DestinationAppend(a, [e]);
    Single(e, LoadingAfter(a, before));
  }

  // ---------------------------------------------------------------------------
  // Save

  /**
    A stored token counts only when it is a non-empty string: a missing entry
    (null) and the empty string are both falsy.
  */
  function HasToken(token: Option<string>): (present: bool)
    ensures token.None? ==> !present
    ensures token == Some("") ==> !present
    ensures token.Some? && |token.value| > 0 ==> present
  {
    token.Some? && token.value != ""
  }

  /** The login page, asked to come back to `href` afterwards. */
  function LoginPath(href: string): (p: string)
    ensures |p| >= |LoginPrefix| && p[..|LoginPrefix|] == LoginPrefix
    ensures forall k :: |LoginPrefix| <= k < |p| ==> UriComponent.ComponentChar(p[k])
  {
    LoginPrefix + UriComponent.Encode(href)
  }

  /** What the save request posts: the itinerary and dates as the page reads them, and the raw origin. */
  function SaveRequestBody(state: RouteState): (b: SaveBody)
    ensures b.recommendations == ReadState(Some(state)).recommendations
    ensures b.startDate == ReadState(Some(state)).startDate
    ensures b.endDate == ReadState(Some(state)).endDate
    ensures b.latitude == state.latitude && b.longitude == state.longitude
  {
    var d := ReadState(Some(state));
    SaveBody(d.recommendations, d.startDate, d.endDate, state.latitude, state.longitude)
  }

  /**
    "Save this itinerary". Without a token the user is sent to the login page
    and nothing else happens. With one, the flag is raised and the itinerary,
    dates and origin are posted with a bearer header; then a success shows a
    notification and moves to the saved-trips page once the flag is lowered
    (the move is deferred), a 401 shows an alert and sends the user to log
    in, and any other failure only shows an alert. The flag is lowered after
    every request.
  */
  function Save(state: RouteState, token: Option<string>, href: string, response: SaveResponse): (effects: seq<Effect>)
    ensures !HasToken(token) ==> effects == [Go(LoginPath(href), None)]
    ensures HasToken(token) ==>
              && |effects| >= 4
              && effects[0] == SetLoading(true)
              && effects[1] == PostSave(SaveRequestBody(state), "Bearer " + token.value)
              && effects[|effects| - 1] != SetLoading(true)
  {
    if !HasToken(token) then [Go(LoginPath(href), None)]
    else
      var sent := [SetLoading(true), PostSave(SaveRequestBody(state), "Bearer " + token.value)];
      match response
      case Saved => sent + [Toast(SavedMessage), SetLoading(false), Go(MyTravelPath, None)]
      case Failed(status) =>
        if status == Some(Unauthorized) then sent + [Alert(AuthMessage), Go(LoginPath(href), None), SetLoading(false)]
        else sent + [Alert(SaveErrorMessage), SetLoading(false)]
  }

  /**
    The outcome table of the save action: without a token, a login redirect
    and nothing else; with one, exactly one request and the flag lowered at
    the end, then the saved-trips page on success, an alert and the login
    page on a 401, and an alert with no navigation on any other failure.
  */
  lemma SaveOutcomes(state: RouteState, token: Option<string>, href: string, response: SaveResponse, before: bool)
    ensures !HasToken(token) ==>
              Requests(Save(state, token, href, response)) == 0 &&
              Destination(Save(state, token, href, response)) == Some(LoginPath(href)) &&
              LoadingAfter(Save(state, token, href, response), before) == before &&
              !Alerts(Save(state, token, href, response))
    ensures HasToken(token) ==>
              Requests(Save(state, token, href, response)) == 1 &&
              !LoadingAfter(Save(state, token, href, response), before)
    ensures HasToken(token) && response == Saved ==>
              Destination(Save(state, token, href, response)) == Some(MyTravelPath) &&
              !Alerts(Save(state, token, href, response))
    ensures HasToken(token) && response == Failed(Some(Unauthorized)) ==>
              Destination(Save(state, token, href, response)) == Some(LoginPath(href)) &&
              Alerts(Save(state, token, href, response))
    ensures HasToken(token) && response.Failed? && response.status != Some(Unauthorized) ==>
              Destination(Save(state, token, href, response)) == None &&
              Alerts(Save(state, token, href, response))
    ensures HasToken(token) && response == Saved ==>
              exists t, l, g :: 0 <= t < l < g < |Save(state, token, href, response)| &&
                Save(state, token, href, response)[t] == Toast(SavedMessage) &&
                Save(state, token, href, response)[l] == SetLoading(false) &&
                Save(state, token, href, response)[g] == Go(MyTravelPath, None)
    ensures HasToken(token) && response == Failed(Some(Unauthorized)) ==>
              exists a, g :: 0 <= a < g < |Save(state, token, href, response)| &&
                Save(state, token, href, response)[a] == Alert(AuthMessage) &&
                Save(state, token, href, response)[g] == Go(LoginPath(href), None)
    ensures HasToken(token) && response.Failed? ==>
              forall k :: 0 <= k < |Save(state, token, href, response)| &&
                          Save(state, token, href, response)[k].Alert? ==>
                Save(state, token, href, response)[k] ==
                  Alert(if response.status == Some(Unauthorized) then AuthMessage else SaveErrorMessage)
    ensures HasToken(token) ==> (Toasts(Save(state, token, href, response)) <==> response == Saved)
    ensures HasToken(token) && response == Saved ==> OnlyGoesTo(Save(state, token, href, response), MyTravelPath)
    ensures HasToken(token) && response == Failed(Some(Unauthorized)) ==>
              OnlyGoesTo(Save(state, token, href, response), LoginPath(href))
    ensures HasToken(token) && response.Failed? && response.status != Some(Unauthorized) ==>
              forall k :: 0 <= k < |Save(state, token, href, response)| ==> !Save(state, token, href, response)[k].Go?
  {
    if !HasToken(token) {
      Single(Save(state, token, href, response)[0], before);
    } else if response == Saved {
      SaveSucceeded(state, token, href, before);
    } else if response == Failed(Some(Unauthorized)) {
      SaveUnauthorized(state, token, href, before);
    } else {
      SaveFailed(state, token, href, response, before);
    }
  }

  /** The readings of the two effects every save with a token starts with. */
  lemma SaveSent(state: RouteState, token: Option<string>, href: string, response: SaveResponse, before: bool)
    requires HasToken(token)
    ensures Requests(Save(state, token, href, response)[..2]) == 1
    ensures LoadingAfter(Save(state, token, href, response)[..2], before)
    ensures Destination(Save(state, token, href, response)[..2]) == None
  {
    var e := Save(state, token, href, response);
    assert e[..2] == [e[0]] + [e[1]];
    Single(e[0], before);
    Snoc([e[0]], e[1], before);
  }

  /** A successful save: the toast, the flag lowered, then the saved-trips page. */
  lemma SaveSucceeded(state: RouteState, token: Option<string>, href: string, before: bool)
    requires HasToken(token)
    ensures var e := Save(state, token, href, Saved);
      && Requests(e) == 1 && !LoadingAfter(e, before)
      && Destination(e) == Some(MyTravelPath) && !Alerts(e) && Toasts(e)
      && OnlyGoesTo(e, MyTravelPath)
      && e[2] == Toast(SavedMessage) && e[3] == SetLoading(false) && e[4] == Go(MyTravelPath, None)
  {
    var e := Save(state, token, href, Saved);
    var sent := [SetLoading(true), PostSave(SaveRequestBody(state), "Bearer " + token.value)];
    assert e == sent + [Toast(SavedMessage), SetLoading(false), Go(MyTravelPath, None)];
    SaveSent(state, token, href, Saved, before);
    assert e[..3] == e[..2] + [e[2]] && e[..4] == e[..3] + [e[3]] && e == e[..4] + [e[4]];
    Snoc(e[..2], e[2], before);
    Snoc(e[..3], e[3], before);
    Snoc(e[..4], e[4], before);
  }

  /** A 401: the authentication alert, then the login page, then the flag lowered. */
  lemma SaveUnauthorized(state: RouteState, token: Option<string>, href: string, before: bool)
    requires HasToken(token)
    ensures var e := Save(state, token, href, Failed(Some(Unauthorized)));
      && Requests(e) == 1 && !LoadingAfter(e, before)
      && Destination(e) == Some(LoginPath(href)) && Alerts(e) && !Toasts(e)
      && OnlyGoesTo(e, LoginPath(href))
      && e[2] == Alert(AuthMessage) && e[3] == Go(LoginPath(href), None)
      && (forall k :: 0 <= k < |e| && e[k].Alert? ==> e[k] == Alert(AuthMessage))
  {
    var e := Save(state, token, href, Failed(Some(Unauthorized)));
    var sent := [SetLoading(true), PostSave(SaveRequestBody(state), "Bearer " + token.value)];
    assert e == sent + [Alert(AuthMessage), Go(LoginPath(href), None), SetLoading(false)];
    SaveSent(state, token, href, Failed(Some(Unauthorized)), before);
    assert e[..3] == e[..2] + [e[2]] && e[..4] == e[..3] + [e[3]] && e == e[..4] + [e[4]];
    Snoc(e[..2], e[2], before);
    Snoc(e[..3], e[3], before);
    Snoc(e[..4], e[4], before);
  }

  /** Any other failure: the generic alert and the flag lowered, nowhere to go. */
  lemma SaveFailed(state: RouteState, token: Option<string>, href: string, response: SaveResponse, before: bool)
    requires HasToken(token)
    requires response.Failed? && response.status != Some(Unauthorized)
    ensures var e := Save(state, token, href, response);
      && Requests(e) == 1 && !LoadingAfter(e, before)
      && Destination(e) == None && Alerts(e) && !Toasts(e)
      && (forall k :: 0 <= k < |e| ==> !e[k].Go?)
      && (forall k :: 0 <= k < |e| && e[k].Alert? ==> e[k] == Alert(SaveErrorMessage))
  {
    var e := Save(state, token, href, response);
    var sent := [SetLoading(true), PostSave(SaveRequestBody(state), "Bearer " + token.value)];
    assert e == sent + [Alert(SaveErrorMessage), SetLoading(false)];
    SaveSent(state, token, href, response, before);
    assert e[..3] == e[..2] + [e[2]] && e == e[..3] + [e[3]];
    Snoc(e[..2], e[2], before);
    Snoc(e[..3], e[3], before);
  }

  /** The login redirect's parameter decodes to exactly the address the user was on. */
  lemma LoginRedirectCarriesAddress(href: string)
    ensures UriComponent.Decode(LoginPath(href)[|LoginPrefix|..]) == Some(href)
  {
    assert LoginPath(href)[|LoginPrefix|..] == UriComponent.Encode(href);
    UriComponent.DecodeEncode(href);
  }

  // ---------------------------------------------------------------------------
  // Recommend again

  /**
    The navigation state of the next recommendation page: the new itinerary
    and the page's trip context. The origin, gender and age group are not
    passed on.
  */
  function NextRoute(d: PageData, days: seq<DayPlan>): (s: RouteState)
    ensures s.latitude.None? && s.longitude.None? && s.gender.None? && s.ageGroup.None?
  {
    RouteState(Some(days), Some(d.companion), Some(d.transport), Some(d.preferences),
               Some(d.purpose), Some(d.startDate), Some(d.endDate), None, None, None, None)
  }

  /** What the recommendation request posts: the page's context, the raw state as the location, and demographics defaulting to empty. */
  function SubmitRequestBody(state: RouteState): (b: SubmitBody)
    ensures b.location == state
    ensures b.companion == ReadState(Some(state)).companion
    ensures b.transport == ReadState(Some(state)).transport
    ensures b.preferences == ReadState(Some(state)).preferences
    ensures b.travelPurpose == ReadState(Some(state)).purpose
    ensures b.gender == (if state.gender.Some? then state.gender.value else "")
    ensures b.ageGroup == (if state.ageGroup.Some? then state.ageGroup.value else "")
  {
    var d := ReadState(Some(state));
    SubmitBody(d.companion, d.transport, d.preferences,
               state.gender.GetOr(""), state.ageGroup.GetOr(""), state, d.purpose)
  }

  /**
    "Recommend again". The flag is raised and the trip context posted; a new
    itinerary opens the recommendation page for it, a failure changes
    nothing visible. Either way the flag is lowered last.
  */
  function Retry(state: RouteState, response: SubmitResponse): (effects: seq<Effect>)
    ensures 3 <= |effects| <= 4
    ensures effects[0] == SetLoading(true)
    ensures effects[1] == PostSubmit(SubmitRequestBody(state))
    ensures effects[|effects| - 1] == SetLoading(false)
  {
    var sent := [SetLoading(true), PostSubmit(SubmitRequestBody(state))];
    match response
    case Recommended(days) =>
      sent + [Go(RecommendationPath, Some(NextRoute(ReadState(Some(state)), days))), SetLoading(false)]
    case SubmitFailed => sent + [SetLoading(false)]
  }

  /**
    The outcome table of the retry action: exactly one request, never an
    alert, the flag lowered at the end, and a navigation to the next
    recommendation page exactly when the server answered with an itinerary.
  */
  lemma RetryOutcomes(state: RouteState, response: SubmitResponse, before: bool)
    ensures Requests(Retry(state, response)) == 1
    ensures !LoadingAfter(Retry(state, response), before)
    ensures !Alerts(Retry(state, response))
    ensures response.SubmitFailed? ==> Destination(Retry(state, response)) == None
    ensures response.Recommended? ==> Destination(Retry(state, response)) == Some(RecommendationPath)
    ensures !Toasts(Retry(state, response))
    ensures response.SubmitFailed? ==> forall k :: 0 <= k < |Retry(state, response)| ==> !Retry(state, response)[k].Go?
    ensures response.Recommended? ==>
              forall k :: 0 <= k < |Retry(state, response)| && Retry(state, response)[k].Go? ==>
                Retry(state, response)[k] ==
                  Go(RecommendationPath, Some(NextRoute(ReadState(Some(state)), response.data)))
  {
    var e := Retry(state, response);
    var e1 := [e[0]];
    var e2 := e1 + [e[1]];
    Single(e[0], before);
    Snoc(e1, e[1], before);
    if |e| == 3 {
      assert e == e2 + [e[2]];
      Snoc(e2, e[2], before);
    } else {
      var e3 := e2 + [e[2]];
      assert e == e3 + [e[3]];
      Snoc(e2, e[2], before);
      Snoc(e3, e[3], before);
    }
  }

  /**
    The next page reads back exactly this page's trip context, with the new
    itinerary in place of the old one.
  */
  lemma RetryCarriesContext(state: RouteState, days: seq<DayPlan>)
    ensures Retry(state, Recommended(days))[2].Go?
    ensures Retry(state, Recommended(days))[2].state.Some?
    ensures ReadState(Retry(state, Recommended(days))[2].state) ==
              ReadState(Some(state)).(recommendations := days)
  {
  }

  /**
    Because the next page's state has no gender, age group or origin, a
    second retry from it sends empty demographics and a location without
    coordinates, whatever the first request carried.
  */
  lemma SecondRetryLosesDemographics(state: RouteState, days: seq<DayPlan>)
    ensures SubmitRequestBody(NextRoute(ReadState(Some(state)), days)).gender == ""
    ensures SubmitRequestBody(NextRoute(ReadState(Some(state)), days)).ageGroup == ""
    ensures SubmitRequestBody(NextRoute(ReadState(Some(state)), days)).location.latitude.None?
    ensures SubmitRequestBody(NextRoute(ReadState(Some(state)), days)).location.longitude.None?
  {
  }
}

=== FILE: day_navigation.dfy ===
/**
  The current-day index of the page: the "next" and "previous" handlers,
  and the navigation controls shown under the day view. `n` is the number of
  days and `i` the current index; the handlers only exist once the page has
  at least one day, and while the itinerary stays the same they are the only
  writers of the index, so `i < n`. A retry that keeps the page mounted can
  replace the itinerary under the old index; the README's "Left out" line
  for `PageView.Render` describes that case.
*/
module DayNavigation {

  /** Moves one day forward, staying on the last day when already there. */
  function Next(n: nat, i: nat): (j: nat)
    requires i < n
    ensures j < n
    ensures i <= j <= i + 1
    ensures j == i <==> i == n - 1
  {
    if i + 1 < n - 1 then i + 1 else n - 1
  }

  /** Moves one day back, staying on the first day when already there. */
  function Previous(n: nat, i: nat): (j: nat)
    requires i < n
    ensures j < n
    ensures i - 1 <= j <= i
    ensures j == i <==> i == 0
  {
    if i - 1 > 0 then i - 1 else 0
  }

  /** The controls of the navigation bar, left to right. */
  datatype Control =
    | PreviousButton
    | NextButton
    | SelectButton(disabled: bool, caption: string)

  const SelectLabel := "이 일정 선택하기"
  const SavingLabel := "저장 중..."

  /**
    The navigation bar for day `i` of `n`: a "previous" button unless on the
    first day, then either a "next" button or, on the last day, the button
    that saves the itinerary, disabled and relabelled while a save runs.
  */
  function Controls(n: nat, i: nat, loading: bool): (cs: seq<Control>)
    requires i < n
    ensures PreviousButton in cs <==> i > 0
    ensures NextButton in cs <==> i < n - 1
    ensures |cs| == (if i > 0 then 2 else 1)
    ensures cs[|cs| - 1] == NextButton || cs[|cs| - 1].SelectButton?
    ensures cs[|cs| - 1].SelectButton? <==> i == n - 1
    ensures forall k :: 0 <= k < |cs| - 1 ==> cs[k] == PreviousButton
    ensures forall c :: c in cs && c.SelectButton? ==>
              c.disabled == loading && c.caption == (if loading then SavingLabel else SelectLabel)
  {
    var back := if i > 0 then [PreviousButton] else [];
    var forward :=
      if i < n - 1 then NextButton
      else SelectButton(loading, if loading then SavingLabel else SelectLabel);
    back + [forward]
  }

  /** The index after applying "next" `k` times. */
  function NextTimes(n: nat, i: nat, k: nat): (j: nat)
    requires i < n
    ensures j < n
    decreases k
  {
    if k == 0 then i else NextTimes(n, Next(n, i), k - 1)
  }

  /** "previous" undoes "next" everywhere except on the last day. */
  lemma PreviousUndoesNext(n: nat, i: nat)
    requires i < n - 1
    ensures Previous(n, Next(n, i)) == i
  {
  }

  /** "next" undoes "previous" everywhere except on the first day. */
  lemma NextUndoesPrevious(n: nat, i: nat)
    requires 0 < i < n
    ensures Next(n, Previous(n, i)) == i
  {
  }

  /** Both handlers are idempotent at their boundary. */
  lemma ClampedAtBoundaries(n: nat)
    requires n > 0
    ensures Next(n, n - 1) == n - 1
    ensures Previous(n, 0) == 0
    ensures Next(n, Next(n, n - 1)) == Next(n, n - 1)
  {
  }

  /** Pressing "next" `k` times moves `k` days, clamped to the last day. */
  lemma {:induction false} NextTimesClamps(n: nat, i: nat, k: nat)
    requires i < n
    ensures NextTimes(n, i, k) == if i + k < n - 1 then i + k else n - 1
    decreases k
  {
    if k > 0 {
      NextTimesClamps(n, Next(n, i), k - 1);
    }
  }

  /**
    A control is offered exactly when pressing it would change the index:
    "previous" is shown iff `Previous` moves, "next" iff `Next` moves, and the
    save button appears exactly where `Next` is a no-op.
  */
  lemma ControlsMatchTransitions(n: nat, i: nat, loading: bool)
    requires i < n
    ensures PreviousButton in Controls(n, i, loading) <==> Previous(n, i) != i
    ensures NextButton in Controls(n, i, loading) <==> Next(n, i) != i
    ensures NextButton !in Controls(n, i, loading) <==> Next(n, i) == i
  {
  }
}

=== FILE: display.dfy ===
/**
  The display strings of the day view: the hashtag line built from the trip
  context, and the numbered rows of the current day with their positional
  badge.
*/
module Display {
  import opened Itinerary

  // ---------------------------------------------------------------------------
  // Hashtags

  /** The non-empty strings of `parts`, in order (JavaScript's `filter(Boolean)` on strings). */
  function NonEmpty(parts: seq<string>): (r: seq<string>)
    ensures |r| <= |parts|
    ensures forall k :: 0 <= k < |r| ==> r[k] != ""
    ensures forall s :: s in r <==> s in parts && s != ""
  {
    if parts == [] then []
    else if parts[0] == "" then NonEmpty(parts[1..])
    else [parts[0]] + NonEmpty(parts[1..])
  }

  /** Filtering distributes over concatenation: the kept strings of `a + b` are those of `a`, then those of `b`. */
  lemma {:induction false} NonEmptyAppend(a: seq<string>, b: seq<string>)
    ensures NonEmpty(a + b) == NonEmpty(a) + NonEmpty(b)
    decreases |a|
  {
    if a == [] {
      assert a + b == b;
    } else {
      assert (a + b)[0] == a[0];
      assert (a + b)[1..] == a[1..] + b;
      NonEmptyAppend(a[1..], b);
    }
  }

  /** One string is kept exactly when it is non-empty. */
  lemma NonEmptySingle(s: string)
    ensures NonEmpty([s]) == if s == "" then [] else [s]
  {
    assert [s][1..] == [];
  }

  /** The strings of `parts` separated by one space (JavaScript's `join(" ")`). */
  function JoinSpace(parts: seq<string>): (r: string)
    ensures parts == [] ==> r == ""
    ensures |parts| == 1 ==> r == parts[0]
  {
    if parts == [] then ""
    else if |parts| == 1 then parts[0]
    else parts[0] + " " + JoinSpace(parts[1..])
  }

  /** A tag for a field: empty when the field is empty, else `#` and its text. */
  function Tag(text: string): (t: string)
    ensures t == "" <==> text == ""
    ensures t != "" ==> t[0] == '#' && t[1..] == text
  {
    if text == "" then "" else "#" + text
  }

  const NatureTag := "자연"
  const CityTag := "도심"
  const NewAreaTag := "새로운 지역"
  const FamiliarAreaTag := "익숙한 지역"

  /** The label of the nature/city flag: only the exact value "nature" means nature. */
  function NatureLabel(nature: string): (text: string)
  {
    if nature == "nature" then NatureTag else CityTag
  }

  /** The label of the new/familiar flag: only the exact value "new" means a new area. */
  function AreaLabel(newPlaces: string): (text: string)
  {
    if newPlaces == "new" then NewAreaTag else FamiliarAreaTag
  }

  /**
    The four candidate tags in display order: companion, transport, the
    nature flag and the new-area flag. An empty field gives an empty tag.
  */
  function Tags(companion: string, transport: string, prefs: Preferences): (ts: seq<string>)
    ensures |ts| == 4
    ensures ts[0] == Tag(companion) && ts[1] == Tag(transport)
    ensures ts[2] == "" <==> prefs.nature == ""
    ensures ts[3] == "" <==> prefs.newPlaces == ""
    ensures prefs.nature != "" ==> ts[2] == "#" + NatureLabel(prefs.nature)
    ensures prefs.newPlaces != "" ==> ts[3] == "#" + AreaLabel(prefs.newPlaces)
  {
    [ Tag(companion),
      Tag(transport),
      if prefs.nature == "" then "" else Tag(NatureLabel(prefs.nature)),
      if prefs.newPlaces == "" then "" else Tag(AreaLabel(prefs.newPlaces)) ]
  }

  /**
    The hashtag line of the page header: the non-empty tags joined by single
    spaces. It equals appending the four tags one at a time in their fixed
    order, skipping empty ones.
  */
  function Hashtags(companion: string, transport: string, prefs: Preferences): (line: string)
    ensures line == AppendAll("", Tags(companion, transport, prefs))
  {
    var ts := Tags(companion, transport, prefs);
    JoinMatchesAppend([], ts);
    assert [] + NonEmpty(ts) == NonEmpty(ts);
    JoinSpace(NonEmpty(ts))
  }

  /**
    An independent reading of the hashtag line: append each tag in turn,
    putting a space between two non-empty pieces and skipping empty tags.
  */
  function Append(line: string, tag: string): (longer: string)
  {
    if tag == "" then line
    else if line == "" then tag
    else line + " " + tag
  }

  function AppendAll(line: string, tags: seq<string>): (longer: string)
    decreases |tags|
  {
    if tags == [] then line else AppendAll(Append(line, tags[0]), tags[1..])
  }

  /** Joining non-empty parts gives the empty string only when there are none. */
  lemma {:induction false} JoinSpaceEmpty(parts: seq<string>)
    requires forall k :: 0 <= k < |parts| ==> parts[k] != ""
    ensures JoinSpace(parts) == "" <==> parts == []
  {
    if |parts| > 1 {
      assert |JoinSpace(parts)| >= |parts[0]| > 0;
    }
  }

  /** Appending one tag to the end of a joined line of non-empty parts. */
  lemma {:induction false} JoinSpaceSnoc(parts: seq<string>, tag: string)
    requires tag != ""
    requires forall k :: 0 <= k < |parts| ==> parts[k] != ""
    ensures JoinSpace(parts + [tag]) == Append(JoinSpace(parts), tag)
    decreases |parts|
  {
    if parts == [] {
      assert parts + [tag] == [tag];
    } else if |parts| == 1 {
      assert parts + [tag] == [parts[0], tag];
      assert [parts[0], tag][1..] == [tag];
    } else {
      var rest := parts[1..];
      assert (parts + [tag])[1..] == rest + [tag];
      JoinSpaceSnoc(rest, tag);
      JoinSpaceEmpty(rest);
      var j := JoinSpace(rest);
      assert JoinSpace(parts + [tag]) == parts[0] + " " + (j + " " + tag);
      assert JoinSpace(parts) == parts[0] + " " + j;
      assert parts[0] + " " + (j + " " + tag) == (parts[0] + " " + j) + " " + tag;
    }
  }

  /** Filtering and joining is the same as appending tags one at a time. */
  lemma {:induction false} JoinMatchesAppend(done: seq<string>, rest: seq<string>)
    requires forall k :: 0 <= k < |done| ==> done[k] != ""
    ensures JoinSpace(done + NonEmpty(rest)) == AppendAll(JoinSpace(done), rest)
    decreases |rest|
  {
    if rest == [] {
      assert done + NonEmpty(rest) == done;
    } else if rest[0] == "" {
      JoinMatchesAppend(done, rest[1..]);
    } else {
      JoinSpaceSnoc(done, rest[0]);
      assert done + NonEmpty(rest) == (done + [rest[0]]) + NonEmpty(rest[1..]);
      JoinMatchesAppend(done + [rest[0]], rest[1..]);
    }
  }

  /**
    The hashtag line is the four tags appended in the fixed order companion,
    transport, nature, new area, each non-empty one separated from the
    previous by one space.
  */
  lemma HashtagsInOrder(companion: string, transport: string, prefs: Preferences)
    ensures Hashtags(companion, transport, prefs) ==
              AppendAll("", Tags(companion, transport, prefs))
    ensures Hashtags(companion, transport, prefs) ==
              Append(Append(Append(Append("", Tag(companion)), Tag(transport)),
                            Tags(companion, transport, prefs)[2]),
                     Tags(companion, transport, prefs)[3])
  {
    var ts := Tags(companion, transport, prefs);
    JoinMatchesAppend([], ts);
    assert [] + NonEmpty(ts) == NonEmpty(ts);
    var l1 := Append("", ts[0]);
    var l2 := Append(l1, ts[1]);
    var l3 := Append(l2, ts[2]);
    assert AppendAll("", ts) == AppendAll(l1, ts[1..]);
    assert AppendAll(l1, ts[1..]) == AppendAll(l2, ts[2..]);
    assert AppendAll(l2, ts[2..]) == AppendAll(l3, ts[3..]);
    assert AppendAll(l3, ts[3..]) == AppendAll(Append(l3, ts[3]), ts[4..]);
  }

  /** The line is empty exactly when all four fields are empty. */
  lemma HashtagsEmpty(companion: string, transport: string, prefs: Preferences)
    ensures Hashtags(companion, transport, prefs) == "" <==>
              companion == "" && transport == "" && prefs.nature == "" && prefs.newPlaces == ""
  {
    var ts := Tags(companion, transport, prefs);
    JoinSpaceEmpty(NonEmpty(ts));
    if companion != "" { assert ts[0] in NonEmpty(ts); }
    if transport != "" { assert ts[1] in NonEmpty(ts); }
    if prefs.nature != "" { assert ts[2] in NonEmpty(ts); }
    if prefs.newPlaces != "" { assert ts[3] in NonEmpty(ts); }
    if NonEmpty(ts) != [] {
      assert NonEmpty(ts)[0] in ts;
    }
  }

  /** A worked line: every field set, with the nature and new-area flags. */
  lemma HashtagsExample()
    ensures Hashtags("가족", "자동차", Preferences("nature", "new")) == "#가족 #자동차 #자연 #새로운 지역"
  {
    var ts := Tags("가족", "자동차", Preferences("nature", "new"));
    assert ts[2] == "#자연" && ts[3] == "#새로운 지역";
    HashtagsInOrder("가족", "자동차", Preferences("nature", "new"));
    ExampleLine();
  }

  lemma ExampleLine()
    ensures Append(Append(Append(Append("", Tag("가족")), Tag("자동차")), "#자연"), "#새로운 지역")
         == "#가족 #자동차 #자연 #새로운 지역"
  {
    var l2 := Append(Append("", "#가족"), "#자동차");
    assert l2 == "#가족 #자동차";
    var l3 := Append(l2, "#자연");
    assert l3 == "#가족 #자동차 #자연";
  }

  /**
    Any non-empty flag value other than "nature" and "new" reads as the city
    and the familiar area.
  */
  lemma HashtagsOtherFlags(nature: string, newPlaces: string)
    requires nature != "" && nature != "nature"
    requires newPlaces != "" && newPlaces != "new"
    ensures Hashtags("", "", Preferences(nature, newPlaces)) == "#도심 #익숙한 지역"
  {
    var ts := Tags("", "", Preferences(nature, newPlaces));
    assert ts[0] == "" && ts[1] == "";
    assert ts[2] == "#도심" && ts[3] == "#익숙한 지역";
    HashtagsInOrder("", "", Preferences(nature, newPlaces));
    assert Append(Append(Append("", ""), ""), "#도심") == "#도심";
  }

  // ---------------------------------------------------------------------------
  // Place rows

  /** The badge drawn around a place's number. */
  datatype Badge = First | Middle | Last

  /**
    The badge of place `index` among `count` places: the first place is
    marked first even when it is the only one, the last of several is marked
    last, and every other place is a middle one.
  */
  function BadgeFor(index: nat, count: nat): (b: Badge)
    requires index < count
    ensures b == First <==> index == 0
    ensures b == Last <==> index == count - 1 && count > 1
    ensures b == Middle <==> 0 < index < count - 1
  {
    if index == 0 then First
    else if index == count - 1 then Last
    else Middle
  }

  /** One row of the day's place list. */
  datatype Row = Row(number: nat, badge: Badge, name: string, city: string)

  /** The rows of a day: one per place, in visiting order, numbered from 1. */
  function Rows(places: seq<Place>): (rows: seq<Row>)
    ensures |rows| == |places|
    ensures forall k :: 0 <= k < |rows| ==>
              rows[k].number == k + 1 && rows[k].badge == BadgeFor(k, |places|) &&
              rows[k].name == places[k].name && rows[k].city == places[k].city
  {
    seq(|places|, k requires 0 <= k < |places| =>
      Row(k + 1, BadgeFor(k, |places|), places[k].name, places[k].city))
  }

  /**
    A non-empty day has exactly one first badge, on row 1; it has a last
    badge exactly when it has more than one place, and then only on its final
    row; row numbers are distinct.
  */
  lemma BadgesOfADay(places: seq<Place>)
    requires |places| > 0
    ensures Rows(places)[0].badge == First
    ensures forall k :: 0 <= k < |places| && Rows(places)[k].badge == First ==> k == 0
    ensures forall k :: 0 <= k < |places| && Rows(places)[k].badge == Last ==> k == |places| - 1
    ensures (exists k :: 0 <= k < |places| && Rows(places)[k].badge == Last) <==> |places| > 1
    ensures forall j, k :: 0 <= j < k < |places| ==> Rows(places)[j].number < Rows(places)[k].number
  {
    if |places| > 1 {
      assert Rows(places)[|places| - 1].badge == Last;
    }
  }
}

=== FILE: itinerary.dfy ===
/**
  The data the recommendation page receives from the router: the itinerary
  (an ordered list of day plans) and the trip context carried over from the
  request form, together with the defaults the page applies to missing fields.
*/
module Itinerary {
  import opened Wrappers

  /** One stop of a day: its name, city and coordinates as sent by the backend. */
  datatype Place = Place(name: string, city: string, latitude: real, longitude: real)

  /** One day of the itinerary: its label ("day N") and its places in visiting order. */
  datatype DayPlan = DayPlan(day: string, places: seq<Place>)

  /** The two preference flags of the request form. A missing flag is the empty string. */
  datatype Preferences = Preferences(nature: string, newPlaces: string)

  /**
    The router's navigation state as the previous page (or a retry) left it.
    Every field may be missing.
  */
  datatype RouteState = RouteState(
    recommendations: Option<seq<DayPlan>>,
    companion: Option<string>,
    transport: Option<string>,
    preferences: Option<Preferences>,
    purpose: Option<string>,
    startDate: Option<string>,
    endDate: Option<string>,
    latitude: Option<real>,
    longitude: Option<real>,
    gender: Option<string>,
    ageGroup: Option<string>)

  /** The values the page works with once defaults are applied. */
  datatype PageData = PageData(
    recommendations: seq<DayPlan>,
    companion: string,
    transport: string,
    preferences: Preferences,
    purpose: string,
    startDate: string,
    endDate: string)

  const NoPreferences := Preferences("", "")

  /** The page data read from an absent navigation state. */
  const EmptyPage := PageData([], "", "", NoPreferences, "", "", "")

  /**
    Reads the navigation state the way the page's destructuring does: an
    absent state behaves like an empty object, and every missing field takes
    its default (no days, empty strings, empty preference flags).
  */
  function ReadState(state: Option<RouteState>): (d: PageData)
    ensures state.None? ==> d == EmptyPage
    ensures state.Some? && state.value.recommendations.Some? ==>
              d.recommendations == state.value.recommendations.value
    ensures state.Some? && state.value.recommendations.None? ==> d.recommendations == []
    ensures state.Some? && state.value.companion.Some? ==> d.companion == state.value.companion.value
    ensures state.Some? && state.value.companion.None? ==> d.companion == ""
    ensures state.Some? && state.value.transport.Some? ==> d.transport == state.value.transport.value
    ensures state.Some? && state.value.transport.None? ==> d.transport == ""
    ensures state.Some? && state.value.preferences.Some? ==> d.preferences == state.value.preferences.value
    ensures state.Some? && state.value.preferences.None? ==> d.preferences == NoPreferences
    ensures state.Some? && state.value.purpose.Some? ==> d.purpose == state.value.purpose.value
    ensures state.Some? && state.value.purpose.None? ==> d.purpose == ""
    ensures state.Some? && state.value.startDate.Some? ==> d.startDate == state.value.startDate.value
    ensures state.Some? && state.value.startDate.None? ==> d.startDate == ""
    ensures state.Some? && state.value.endDate.Some? ==> d.endDate == state.value.endDate.value
    ensures state.Some? && state.value.endDate.None? ==> d.endDate == ""
  {
    match state
    case None => EmptyPage
    case Some(s) =>
      PageData(
        s.recommendations.GetOr([]),
        s.companion.GetOr(""),
        s.transport.GetOr(""),
        s.preferences.GetOr(NoPreferences),
        s.purpose.GetOr(""),
        s.startDate.GetOr(""),
        s.endDate.GetOr(""))
  }

  /** A page with no days renders only the error message. */
  predicate HasDays(d: PageData)
  {
    |d.recommendations| > 0
  }

  /** The index invariant of the page: a valid day of a non-empty itinerary. */
  predicate ValidDay(d: PageData, current: nat)
  {
    current < |d.recommendations|
  }
}

=== FILE: marker_sync.dfy ===
/**
  The effect that keeps the map's numbered overlays in step with the shown
  day. Map-provider objects are abstracted: a marker is a value carrying
  its number, its position and whether it is attached to the map.
*/
module MarkerSync {
  import opened Wrappers
  import opened Itinerary
  import Display

  /** A map coordinate as the provider's constructor receives it: first argument, second argument. */
  datatype LatLng = LatLng(first: real, second: real)

  /** A numbered overlay pinned at a position, attached to the map or detached. */
  datatype Marker = Marker(number: nat, position: LatLng, attached: bool)

  /**
    The overlay position of a place. The page passes the longitude as the
    first argument and the latitude as the second, the reverse of the map
    centre's order.
  */
  function Position(p: Place): (ll: LatLng)
    ensures ll.first == p.longitude && ll.second == p.latitude
  {
    LatLng(p.longitude, p.latitude)
  }

  /**
    A marker lands where the map centre's argument order (latitude first)
    would put it only for places whose latitude equals their longitude.
  */
  lemma PositionSwapsAxes(p: Place)
    ensures Position(p) == LatLng(p.latitude, p.longitude) <==> p.latitude == p.longitude
  {
  }

  /** The outcome of one run of the effect. */
  datatype SyncResult = SyncResult(
    released: seq<Marker>,          // the previously held markers after the run
    held: seq<Marker>,              // the markers the page holds afterwards
    fitted: Option<seq<LatLng>>)    // the points the map view was fitted to, if it was

  /** Every marker of the list is detached. */
  predicate AllDetached(ms: seq<Marker>)
  {
    forall k :: 0 <= k < |ms| ==> !ms[k].attached
  }

  /** Detaches every marker, keeping its number and position. */
  function DetachAll(ms: seq<Marker>): (r: seq<Marker>)
    ensures |r| == |ms|
    ensures AllDetached(r)
    ensures forall k :: 0 <= k < |r| ==>
              r[k].number == ms[k].number && r[k].position == ms[k].position
  {
    if ms == [] then [] else [ms[0].(attached := false)] + DetachAll(ms[1..])
  }

  /**
    One attached marker per place, in list order, numbered from `from + 1`
    (the effect builds them with `from` = 0).
  */
  function Build(places: seq<Place>, from: nat): (ms: seq<Marker>)
    ensures |ms| == |places|
    ensures forall k :: 0 <= k < |ms| ==>
              ms[k] == Marker(from + k + 1, Position(places[k]), true)
  {
    if places == [] then []
    else [Marker(from + 1, Position(places[0]), true)] + Build(places[1..], from + 1)
  }

  /** The positions of the places, in order: the points the bounds are extended with. */
  function Positions(places: seq<Place>): (ps: seq<LatLng>)
    ensures |ps| == |places|
    ensures forall k :: 0 <= k < |ps| ==> ps[k] == Position(places[k])
  {
    if places == [] then [] else [Position(places[0])] + Positions(places[1..])
  }

  /**
    One run of the effect. Without a map nothing happens. Otherwise every
    held marker is detached and dropped; then, when the itinerary has days,
    one marker per place of the current day is attached, numbered 1, 2, …
    in visiting order, and the map is fitted to their positions.
  */
  function Sync(mapReady: bool, held: seq<Marker>, days: seq<DayPlan>, current: nat): (r: SyncResult)
    requires |days| > 0 ==> current < |days|
    ensures !mapReady ==> r.held == held && r.released == [] && r.fitted.None?
    ensures mapReady ==> |r.released| == |held| && AllDetached(r.released)
    ensures mapReady ==> forall k :: 0 <= k < |held| ==>
              r.released[k].number == held[k].number && r.released[k].position == held[k].position
    ensures mapReady && days == [] ==> r.held == [] && r.fitted.None?
    ensures mapReady && days != [] ==>
              && |r.held| == |days[current].places|
              && (forall k :: 0 <= k < |r.held| ==>
                    r.held[k] == Marker(k + 1, Position(days[current].places[k]), true))
              && r.fitted == Some(Positions(days[current].places))
  {
    if !mapReady then SyncResult([], held, None)
    else if |days| == 0 then SyncResult(DetachAll(held), [], None)
    else
      var places := days[current].places;
      SyncResult(DetachAll(held), Build(places, 0), Some(Positions(places)))
  }

  /** The number of attached markers in a list. */
  function AttachedCount(ms: seq<Marker>): (c: nat)
    ensures c <= |ms|
  {
    if ms == [] then 0 else (if ms[0].attached then 1 else 0) + AttachedCount(ms[1..])
  }

  lemma {:induction false} AttachedCountNone(ms: seq<Marker>)
    requires AllDetached(ms)
    ensures AttachedCount(ms) == 0
    decreases |ms|
  {
    if ms != [] {
      AttachedCountNone(ms[1..]);
    }
  }

  lemma {:induction false} AttachedCountAll(ms: seq<Marker>)
    requires forall k :: 0 <= k < |ms| ==> ms[k].attached
    ensures AttachedCount(ms) == |ms|
    decreases |ms|
  {
    if ms != [] {
      AttachedCountAll(ms[1..]);
    }
  }

  /**
    Overlays never accumulate: after a run with a map, none of the markers
    held before is attached, and the attached markers are exactly as many as
    the current day has places.
  */
  lemma NoStaleMarkers(held: seq<Marker>, days: seq<DayPlan>, current: nat)
    requires |days| > 0 ==> current < |days|
    ensures AttachedCount(Sync(true, held, days, current).released) == 0
    ensures AttachedCount(Sync(true, held, days, current).held) ==
              if days == [] then 0 else |days[current].places|
  {
    var r := Sync(true, held, days, current);
    AttachedCountNone(r.released);
    AttachedCountAll(r.held);
  }

  /**
    Running the effect again on its own output (the held markers are one of
    its triggers) rebuilds the same marker list and detaches the one it
    replaces.
  */
  lemma ResyncRebuildsSameMarkers(held: seq<Marker>, days: seq<DayPlan>, current: nat)
    requires |days| > 0 ==> current < |days|
    ensures Sync(true, Sync(true, held, days, current).held, days, current).held ==
              Sync(true, held, days, current).held
    ensures AllDetached(Sync(true, Sync(true, held, days, current).held, days, current).released)
  {
  }

  /**
    Marker `k` of the map carries the same number as row `k` of the place
    list: the map and the list agree on the visiting order.
  */
  lemma MarkersMatchRows(held: seq<Marker>, days: seq<DayPlan>, current: nat)
    requires current < |days|
    ensures |Sync(true, held, days, current).held| == |Display.Rows(days[current].places)|
    ensures forall k :: 0 <= k < |days[current].places| ==>
              Sync(true, held, days, current).held[k].number ==
              Display.Rows(days[current].places)[k].number
  {
  }
}

=== FILE: page_view.dfy ===
/**
  What the recommendation page renders for a given day index and loading
  flag: either the terminal error message, or the day view with its hashtag
  line, day label, numbered place rows, "recommend again" button and
  navigation bar. The localized date next to the day label and the map
  container are not part of this view.
*/
module PageView {
  import opened Itinerary
  import opened DayNavigation
  import opened Display

  const NoDataMessage := "추천 데이터를 가져오는 중 오류가 발생했습니다."

  datatype View =
    | ErrorMessage(text: string)
    | DayView(
        hashtags: string,
        day: string,
        rows: seq<Row>,
        retryDisabled: bool,
        controls: seq<Control>)

  /**
    The page for day `current`. A page without days shows only the error
    message; otherwise it shows the current day's label and rows, and the
    navigation bar for that day, with both action buttons disabled while a
    request runs.
  */
  function Render(d: PageData, current: nat, loading: bool): (v: View)
    requires HasDays(d) ==> ValidDay(d, current)
    ensures v.ErrorMessage? <==> !HasDays(d)
    ensures v.ErrorMessage? ==> v.text == NoDataMessage
    ensures v.DayView? ==>
              && v.day == d.recommendations[current].day
              && |v.rows| == |d.recommendations[current].places|
              && v.rows == Rows(d.recommendations[current].places)
              && v.controls == Controls(|d.recommendations|, current, loading)
              && v.retryDisabled == loading
              && (PreviousButton in v.controls <==> current > 0)
              && (NextButton in v.controls <==> current < |d.recommendations| - 1)
              && |v.controls| > 0
              && (v.controls[|v.controls| - 1].SelectButton? <==> current == |d.recommendations| - 1)
              && v.hashtags == Hashtags(d.companion, d.transport, d.preferences)
  {
    if !HasDays(d) then ErrorMessage(NoDataMessage)
    else
      DayView(
        Hashtags(d.companion, d.transport, d.preferences),
        d.recommendations[current].day,
        Rows(d.recommendations[current].places),
        loading,
        Controls(|d.recommendations|, current, loading))
  }

  /** The error page has no navigation bar and no place rows: nothing to navigate. */
  lemma EmptyItineraryIsTerminal(d: PageData, current: nat, loading: bool)
    requires !HasDays(d)
    ensures Render(d, current, loading) == ErrorMessage(NoDataMessage)
    ensures !Render(d, current, loading).DayView?
  {
  }

  /**
    Navigation keeps the page renderable: from any valid day, "next" and
    "previous" lead to a valid day, so the day view is shown again.
  */
  lemma NavigationStaysOnDayView(d: PageData, current: nat, loading: bool)
    requires ValidDay(d, current)
    ensures ValidDay(d, Next(|d.recommendations|, current))
    ensures ValidDay(d, Previous(|d.recommendations|, current))
    ensures Render(d, Next(|d.recommendations|, current), loading).DayView?
    ensures Render(d, Previous(|d.recommendations|, current), loading).DayView?
  {
  }

  /** While a request runs, both buttons that send one are disabled. */
  lemma LoadingDisablesActions(d: PageData, current: nat)
    requires ValidDay(d, current)
    ensures Render(d, current, true).retryDisabled
    ensures forall c :: c in Render(d, current, true).controls && c.SelectButton? ==>
              c.disabled && c.caption == SavingLabel
  {
  }

  /** The page a fresh navigation opens: day 0, no request running. */
  lemma FreshPageShowsFirstDay(state: Wrappers.Option<RouteState>)
    ensures Render(ReadState(state), 0, false).DayView? <==> HasDays(ReadState(state))
    ensures HasDays(ReadState(state)) ==>
              PreviousButton !in Render(ReadState(state), 0, false).controls
  {
  }
}

=== FILE: uri_component.dfy ===
/**
  URI component encoding as the login redirect uses it to carry the current
  page address in its `redirectUri` query parameter (the `encodeURIComponent`
  and `decodeURIComponent` functions of ECMAScript, section 19.2.6 of
  ECMA-262). A character is a Unicode scalar value, so the lone-surrogate
  error of the JavaScript function cannot arise.
*/
module UriComponent {
  import opened Wrappers

  /** An octet of a UTF-8 encoding. */
  type Byte = b: int | 0 <= b < 256

  /** The characters `encodeURIComponent` leaves unescaped: ASCII letters, digits and `-_.!~*'()`. */
  predicate Unreserved(c: char)
  {
    || ('A' <= c <= 'Z') || ('a' <= c <= 'z') || ('0' <= c <= '9')
    || c == '-' || c == '_' || c == '.' || c == '!' || c == '~'
    || c == '*' || c == '\'' || c == '(' || c == ')'
  }

  /** The characters an encoded component may contain. */
  predicate ComponentChar(c: char)
  {
    Unreserved(c) || c == '%'
  }

  predicate IsHexDigit(c: char)
  {
    ('0' <= c <= '9') || ('A' <= c <= 'F') || ('a' <= c <= 'f')
  }

  function HexValue(c: char): (v: nat)
    requires IsHexDigit(c)
    ensures v < 16
  {
    if '0' <= c <= '9' then c as int - '0' as int
    else if 'A' <= c <= 'F' then c as int - 'A' as int + 10
    else c as int - 'a' as int + 10
  }

  /** The upper-case hexadecimal digit of a value below 16. */
  function HexDigit(d: nat): (c: char)
    requires d < 16
    ensures IsHexDigit(c) && Unreserved(c) && HexValue(c) == d
  {
    if d < 10 then ('0' as int + d) as char else ('A' as int + d - 10) as char
  }

  // ---------------------------------------------------------------------------
  // UTF-8

  /** The UTF-8 encoding of a character (section 3.9 of the Unicode standard). */
  function Utf8(c: char): (bs: seq<Byte>)
    ensures 1 <= |bs| <= 4
    ensures |bs| == 1 <==> (c as int) < 0x80
  {
    var cp := c as int;
    if cp < 0x80 then [cp]
    else if cp < 0x800 then [0xC0 + cp / 64, 0x80 + cp % 64]
    else if cp < 0x10000 then [0xE0 + cp / 4096, 0x80 + (cp / 64) % 64, 0x80 + cp % 64]
    else [0xF0 + cp / 262144, 0x80 + (cp / 4096) % 64, 0x80 + (cp / 64) % 64, 0x80 + cp % 64]
  }

  /** The length of the encoding a leading octet announces; 0 for an octet that cannot lead. */
  function Utf8Width(b: Byte): (n: nat)
    ensures n <= 4
  {
    if b < 0x80 then 1
    else if 0xC0 <= b < 0xE0 then 2
    else if 0xE0 <= b < 0xF0 then 3
    else if 0xF0 <= b < 0xF8 then 4
    else 0
  }

  predicate Continuation(b: Byte)
  {
    0x80 <= b < 0xC0
  }

  predicate ScalarValue(cp: int)
  {
    (0 <= cp < 0xD800) || (0xE000 <= cp < 0x110000)
  }

  /** The code point a lead octet and its continuation octets spell, without range checks. */
  function CodePoint(bs: seq<Byte>): (cp: int)
    requires 2 <= |bs| <= 4
  {
    var b0: int := bs[0];
    var b1: int := bs[1];
    if |bs| == 2 then (b0 - 0xC0) * 64 + (b1 - 0x80)
    else
      var b2: int := bs[2];
      if |bs| == 3 then (b0 - 0xE0) * 4096 + (b1 - 0x80) * 64 + (b2 - 0x80)
      else
        var b3: int := bs[3];
        (b0 - 0xF0) * 262144 + (b1 - 0x80) * 4096 + (b2 - 0x80) * 64 + (b3 - 0x80)
  }

  /**
    The character of one complete UTF-8 sequence, or None when the octets are
    not a shortest-form encoding of a Unicode scalar value (the URIError cases
    of the decoder).
  */
  function Utf8Char(bs: seq<Byte>): (r: Option<char>)
    requires |bs| > 0 && |bs| == Utf8Width(bs[0])
  {
    if |bs| == 1 then Some(bs[0] as char)
    else if exists k :: 1 <= k < |bs| && !Continuation(bs[k]) then None
    else
      var cp: int := CodePoint(bs);
      var least: int := if |bs| == 2 then 0x80 else if |bs| == 3 then 0x800 else 0x10000;
      if least <= cp && ScalarValue(cp) then Some(cp as char) else None
  }

  lemma Utf8TwoOctets(cp: int)
    requires 0x80 <= cp < 0x800
    ensures CodePoint([0xC0 + cp / 64, 0x80 + cp % 64]) == cp
  {
    var q := cp / 64;
    assert q * 64 + cp % 64 == cp;
  }

  lemma Utf8ThreeOctets(cp: int)
    requires 0x800 <= cp < 0x10000
    ensures CodePoint([0xE0 + cp / 4096, 0x80 + (cp / 64) % 64, 0x80 + cp % 64]) == cp
  {
    var q := cp / 64;
    assert q * 64 + cp % 64 == cp;
    assert q / 64 == cp / 4096;
    assert (q / 64) * 64 + q % 64 == q;
  }

  lemma Utf8FourOctets(cp: int)
    requires 0x10000 <= cp < 0x110000
    ensures CodePoint([0xF0 + cp / 262144, 0x80 + (cp / 4096) % 64, 0x80 + (cp / 64) % 64, 0x80 + cp % 64]) == cp
  {
    var q := cp / 64;
    var r := q / 64;
    assert q * 64 + cp % 64 == cp;
    assert r == cp / 4096;
    assert r * 64 + q % 64 == q;
    assert r / 64 == cp / 262144;
    assert (r / 64) * 64 + r % 64 == r;
  }

  /** Decoding the UTF-8 encoding of a character gives the character back. */
  lemma Utf8RoundTrip(c: char)
    ensures Utf8Width(Utf8(c)[0]) == |Utf8(c)|
    ensures Utf8Char(Utf8(c)) == Some(c)
  {
    var cp := c as int;
    if cp < 0x80 {
    } else if cp < 0x800 {
      Utf8TwoOctets(cp);
    } else if cp < 0x10000 {
      Utf8ThreeOctets(cp);
    } else {
      Utf8FourOctets(cp);
    }
  }

  // ---------------------------------------------------------------------------
  // Percent encoding

  /** Each octet as `%` and two upper-case hexadecimal digits. */
  function Escape(bs: seq<Byte>): (s: string)
    ensures |s| == 3 * |bs|
    ensures forall k :: 0 <= k < |s| ==> ComponentChar(s[k])
  {
    if bs == [] then [] else ['%', HexDigit(bs[0] / 16), HexDigit(bs[0] % 16)] + Escape(bs[1..])
  }

  /** The octet written as `%XY` at the start of `s`, if there is one. */
  function ReadEscape(s: string): (r: Option<Byte>)
  {
    if |s| >= 3 && s[0] == '%' && IsHexDigit(s[1]) && IsHexDigit(s[2])
    then Some(HexValue(s[1]) * 16 + HexValue(s[2]))
    else None
  }

  /** The `n` octets escaped at the start of `s`, if they are all well-formed. */
  function ReadEscapes(s: string, n: nat): (r: Option<seq<Byte>>)
    ensures r.Some? ==> |r.value| == n && |s| >= 3 * n
    decreases n
  {
    if n == 0 then Some([])
    else
      match ReadEscape(s)
      case None => None
      case Some(b) =>
        match ReadEscapes(s[3..], n - 1)
        case None => None
        case Some(rest) => Some([b] + rest)
  }

  lemma {:induction false} ReadEscapesOfEscape(bs: seq<Byte>, tail: string)
    ensures ReadEscapes(Escape(bs) + tail, |bs|) == Some(bs)
    decreases |bs|
  {
    if bs != [] {
      var s := Escape(bs) + tail;
      var b := bs[0];
      assert s[0] == '%' && s[1] == HexDigit(b / 16) && s[2] == HexDigit(b % 16);
      assert ReadEscape(s) == Some(b);
      assert s[3..] == Escape(bs[1..]) + tail;
      ReadEscapesOfEscape(bs[1..], tail);
      assert [b] + bs[1..] == bs;
    }
  }

  /** A character as `encodeURIComponent` writes it. */
  function EncodeChar(c: char): (s: string)
    ensures forall k :: 0 <= k < |s| ==> ComponentChar(s[k])
    ensures Unreserved(c) ==> s == [c]
  {
    if Unreserved(c) then [c] else Escape(Utf8(c))
  }

  /** `encodeURIComponent`: unreserved characters as they are, every other one as its escaped UTF-8 octets. */
  function Encode(s: string): (e: string)
    ensures |e| >= |s|
    ensures forall k :: 0 <= k < |e| ==> ComponentChar(e[k])
  {
    if s == [] then [] else EncodeChar(s[0]) + Encode(s[1..])
  }

  /**
    `decodeURIComponent`: every escape sequence, or run of escapes forming one
    UTF-8 character, is replaced by its character; None where the function
    throws a URIError (a malformed escape or UTF-8 sequence).
  */
  function Decode(s: string): (r: Option<string>)
    decreases |s|
  {
    if s == [] then Some([])
    else if s[0] != '%' then
      match Decode(s[1..])
      case None => None
      case Some(t) => Some([s[0]] + t)
    else
      match ReadEscape(s)
      case None => None
      case Some(lead) =>
        var n := Utf8Width(lead);
        if n == 0 then None
        else
          match ReadEscapes(s, n)
          case None => None
          case Some(bs) =>
            match Utf8Char(bs)
            case None => None
            case Some(c) =>
              match Decode(s[3 * n..])
              case None => None
              case Some(t) => Some([c] + t)
  }

  lemma DecodeEncodeChar(c: char, tail: string)
    ensures Decode(EncodeChar(c) + tail) ==
              match Decode(tail) case None => None case Some(t) => Some([c] + t)
  {
    var s := EncodeChar(c) + tail;
    if Unreserved(c) {
      assert s[0] == c && s[1..] == tail;
    } else {
      var bs := Utf8(c);
      Utf8RoundTrip(c);
      ReadEscapesOfEscape(bs, tail);
      assert s[0] == '%';
      assert ReadEscape(s) == Some(bs[0]) by {
        assert s[1] == HexDigit(bs[0] / 16) && s[2] == HexDigit(bs[0] % 16);
      }
      assert s[3 * |bs|..] == tail;
    }
  }

  /** Decoding an encoded component gives back the original text. */
  lemma {:induction false} DecodeEncode(s: string)
    ensures Decode(Encode(s)) == Some(s)
    decreases |s|
  {
    if s != [] {
      DecodeEncode(s[1..]);
      DecodeEncodeChar(s[0], Encode(s[1..]));
      assert [s[0]] + s[1..] == s;
    }
  }

  /** The encoding is one-to-one: two addresses with the same encoding are the same. */
  lemma EncodeInjective(a: string, b: string)
    requires Encode(a) == Encode(b)
    ensures a == b
  {
    DecodeEncode(a);
    DecodeEncode(b);
  }

  /** A worked example: a page address with a query string. */
  lemma EncodeExample()
    ensures Encode("a b&c") == "a%20b%26c"
  {
    assert Encode("c") == "c";
    assert Encode("&c") == "%26c";
    assert Encode("b&c") == "b%26c";
    assert Encode(" b&c") == "%20b%26c";
  }
}

=== FILE: wrappers.dfy ===
/** Optional values: a field of a JavaScript object that may be undefined. */
module Wrappers {

  datatype Option<+T> = None | Some(value: T) {

    /** The value if present, else the given default (a destructuring default). */
    function GetOr(default: T): T
    {
      match this
      case Some(v) => v
      case None => default
    }
  }
}
